=== FILE: README.md ===
# Sheep rig, frame timing, navigation slug and experience selection — a Dafny model

This project models the small pieces of real logic inside a portfolio web site
whose remaining code is declarative React and three.js composition:

* **Head rig set-up** (`src/components/scene/Sheep.tsx`). When the sheep model
  loads, every named node of its scene graph is sorted into head, ear and leg
  lists by a case-insensitive substring match. The head rig is the lowest
  common ancestor of the first head and the ears. If that ancestor is
  missing or is the loaded scene itself, the first head is used instead.
  Each leg gets one random (phase, speed, amplitude) triple for its idle
  sway.
* **Per-frame timing** (same file). Each frame runs two parts. The first is
  an 0.8-unit entrance that grows the sheep from half to full base scale
  and fades it in along a cubic ease-in-out. The second runs only after the
  entrance: a random "hop" or "wiggle" flourish of 0.6 units, started when
  more than 8 + 2·r units have passed since the last one began.
* **Section anchor ids** (`src/components/layout/Navbar.tsx`). A section name
  is lower-cased, and each whitespace run becomes one `-`. The link's `href`
  is `#` followed by that id, and its click handler scrolls to the same id.
* **Experience selection** (`src/components/layout/sections/ExperiencesSection.tsx`).
  The selected id starts at the first entry. Selecting the current id does
  nothing, and selecting any other id stores it. The entry shown is the
  first whose id matches.

Modules: `Options` (optional values), `Draws` (random draws as parameters),
`Ascii` (ASCII case folding and case-insensitive search), `SceneGraph`
(forest, ancestor chains, LCA), `Rig` (classification, rig choice, leg
offsets), `Animator` (frame state machine), `Navbar` and `Experiences`.

Modelling choices:

* The scene graph is a set of natural-number node ids. It has a partial
  `parent` map and a partial `name` map. A well-formed graph numbers every
  parent below its children. The id therefore serves as a rank, and the walk
  up the parent links ends. Three.js scene graphs are trees, and any finite
  tree can be numbered this way. The three.js `traverse` walk is an input
  sequence of node ids.
* Times, scales and draws are `real`s. `Math.random()` becomes a parameter in
  [0, 1). `Math.PI` is the decimal `3.141592653589793`. The per-frame sine
  offsets are not computed. A frame reports which offsets the frame
  callback evaluates, and at what progress.
* `/head/i` without the `u` flag folds only characters whose upper-case
  form does not cross from non-ASCII into ASCII. For "head", "ear" and "leg"
  exactly the ASCII letters fold, so ASCII lowering is exact here.

Behaviour of the code worth stating plainly:

* With no head but some ears, the rig is the LCA of the ears when that LCA
  exists and is not the scene root (`Rig.SelectRig`).
* A flourish resets to none on the first frame at which
  `(time - start) / 0.6 >= 1`, that is, at the first frame at or after 0.6
  units from its start (`Animator.SpecialRunsItsCourse`).
* The trigger gap is strict: a flourish starts exactly when more than
  `8 + 2·r1` units have passed, so never within 8 and always after 10
  (`Animator.SpecialTrigger`).
* The entrance start time 0 means "not yet started". A first frame whose
  clock reads exactly 0 therefore restarts the entrance on the next frame.
  `Animator.EntranceGrows` covers this case.

## Model

| member | source | states |
|---|---|---|
| Ascii.Search | src/components/scene/Sheep.tsx:22-24 | the scan returns the first position at which the lower-case pattern matches the name ignoring ASCII case, or none when no position matches |
| Ascii.TestIffContains | src/components/scene/Sheep.tsx:22-24 | the regex test succeeds exactly when the pattern occurs somewhere in the name, ignoring case |
| SceneGraph.Ancestors | src/components/scene/Sheep.tsx:29-37 | the chain starts at the node, each later element is the parent of the one before, and it ends at a node with no parent |
| SceneGraph.ParentChainUnique | src/components/scene/Sheep.tsx:29-37 | any sequence with that shape is the ancestor chain, so the chain is fully determined by the parent links |
| SceneGraph.FirstCommon | src/components/scene/Sheep.tsx:42-45 | the loop over the first chain stops at the first candidate found in every chain and skips only candidates that are not |
| SceneGraph.Lca | src/components/scene/Sheep.tsx:39-46 | empty list gives null; the result is non-null exactly when the nodes have a common ancestor; a non-null result lies on every chain and is the first such element of the first node's chain |
| SceneGraph.LcaIsLowest | src/components/scene/Sheep.tsx:39-46 | every common ancestor of the nodes lies on the result's own chain: the result is the lowest common ancestor |
| SceneGraph.LcaSingleton | src/components/scene/Sheep.tsx:39-46 | a one-node list returns that node |
| SceneGraph.LcaDisjoint | src/components/scene/Sheep.tsx:42-45 | two nodes whose chains share nothing have a null LCA |
| SceneGraph.LcaSiblings | src/components/scene/Sheep.tsx:39-46 | for A→B→root and C→B→root the LCA of A and C is B |
| Rig.Select | src/components/scene/Sheep.tsx:20-25 | a node is selected exactly when it is visited, has a non-empty name and its name matches the pattern |
| Rig.SelectAppend | src/components/scene/Sheep.tsx:20-25 | selection over a concatenated traversal is the two selections concatenated, so traversal order is kept |
| Rig.Classify | src/components/scene/Sheep.tsx:16-25 | a visited node is in heads, ears or legs exactly when it is named and its name contains "head", "ear" or "leg" ignoring case; unnamed nodes are in no list and a node may be in several |
| Rig.Traverse | src/components/scene/Sheep.tsx:16-25 | the push-as-you-visit loop builds exactly the declarative classification |
| Rig.SelectRig | src/components/scene/Sheep.tsx:27-49 | the rig is the LCA of the head and ears whenever that LCA exists and is not the scene root; the rig is null exactly when there is no head and that LCA is null or the scene root; a rig other than the first head is not the scene root, is a common ancestor of head and ears, and lies below every other common ancestor |
| Rig.RigAboveHead | src/components/scene/Sheep.tsx:27-49 | with a head present the rig exists and is the head or one of its ancestors |
| Rig.RigIsTracked | src/components/scene/Sheep.tsx:263 | when the traversed nodes all lie below the scene and the scene hangs under the animated group, any chosen rig differs from the group, so the head turns on its own |
| Rig.OffsetFor | src/components/scene/Sheep.tsx:52-56 | draws in [0,1) give phase in [0, 2π), speed in [1.5, 2.0) and amplitude in [0.06, 0.10) |
| Rig.LegOffsets | src/components/scene/Sheep.tsx:51-56 | exactly one offset per leg, each within those ranges and computed from that leg's own draws |
| Rig.OffsetForOnto | src/components/scene/Sheep.tsx:52-56 | every offset inside the three ranges is produced by some draws in [0,1), so the ranges are exactly the reachable values |
| Rig.OffsetForInjective | src/components/scene/Sheep.tsx:52-56 | the offset determines its three draws: different draws give different offsets |
| Rig.LegsIndependent | src/components/scene/Sheep.tsx:51-56 | two legs with different draws get different offsets, so the legs sway independently |
| Rig.Load | src/components/scene/Sheep.tsx:15-59 | the set-up returns as many offsets as leg nodes, the legs are exactly the named nodes containing "leg", and the head rig is the selected rig |
| Animator.Progress | src/components/scene/Sheep.tsx:139-140 | progress is at most 1, non-negative for non-negative elapsed time, equals 1 exactly when 0.8 units have elapsed, and below that is elapsed/0.8 |
| Animator.EasedRange | src/components/scene/Sheep.tsx:142-144 | on [0,1] the eased value lies in [0,1], eased(0)=0, eased(1)=1, and it is at most 1/2 before the midpoint and at least 1/2 after |
| Animator.EasedMonotone | src/components/scene/Sheep.tsx:142-144 | the eased value never decreases as progress grows |
| Animator.EntranceStep | src/components/scene/Sheep.tsx:132-174 | a completed entrance writes nothing; while it runs the opacity written is the eased progress `Eased(min(elapsed/0.8, 1))` and the scale 0.4·(0.5 + 0.5·eased); the entrance completes exactly when it had started and 0.8 units have passed; on completion scale 0.4, opacity 1 and transparency off; before it, transparency on, opacity in [0,1] and scale 0.2 + 0.2·opacity within [0.2, 0.4] |
| Animator.PickKind | src/components/scene/Sheep.tsx:185-186 | the flourish is never none, and is a hop exactly when the draw is below one half |
| Animator.Step | src/components/scene/Sheep.tsx:130-242 | a frame keeps the invariant (an active flourish has duration 0.6, began at the last trigger time and follows the entrance); completion is never undone; the idle block is skipped exactly while the entrance runs, and then no flourish state changes |
| Animator.StepKeepsClockOrder | src/components/scene/Sheep.tsx:135-193 | every stored start time lies at or before any later clock reading |
| Animator.FirstFrame | src/components/scene/Sheep.tsx:133-157 | the first frame writes half the base scale, opacity 0 and transparency on, and starts the entrance clock at the current time |
| Animator.EntranceGrows | src/components/scene/Sheep.tsx:139-148 | over two frames of the entrance neither the scale nor the opacity decreases |
| Animator.SpecialRunsItsCourse | src/components/scene/Sheep.tsx:201-222 | while a flourish runs none is re-triggered; it ends exactly on a frame with at least 0.6 units since it began, and otherwise keeps its kind and evaluates its hop or wiggle offset at the elapsed fraction (time − start)/0.6 |
| Animator.SpecialTrigger | src/components/scene/Sheep.tsx:179-221 | a flourish starts exactly when the entrance is complete and more than 8 + 2·r1 units have passed since the last began (so never within 8, always after 10); it starts now, is evaluated at progress 0 on that frame, lasts 0.6, updates the last-trigger time and is a hop exactly when the draw is below one half |
| Animator.RollZeroUnlessWiggle | src/components/scene/Sheep.tsx:197-234 | an idle frame evaluates at most one flourish at a progress in [0,1); the roll is zero unless a wiggle is running, and a running wiggle is always evaluated |
| Animator.WiggleDecays | src/components/scene/Sheep.tsx:210-219 | the wiggle's roll amplitude starts at 0.15, stays in [0, 0.15] and never grows |
| Animator.Run | src/components/scene/Sheep.tsx:124-242 | any run of frames keeps the invariant, so a flourish is never active before the entrance completes |
| Animator.CompleteStaysComplete | src/components/scene/Sheep.tsx:159-177 | once the entrance is complete it stays complete for every later frame |
| Navbar.Scan | src/components/layout/Navbar.tsx:31 | the replacement leaves no whitespace, is no longer than its input, and introduces no capital letter |
| Navbar.Slug | src/components/layout/Navbar.tsx:31 | the id has no whitespace, no upper-case letter, and is no longer than the section name |
| Navbar.ScanAppend | src/components/layout/Navbar.tsx:31 | replacing over a concatenation replaces each part, the second continuing the first one's whitespace run |
| Navbar.CollapseRun | src/components/layout/Navbar.tsx:31 | each maximal whitespace run, of any length, becomes exactly one `-` and the text on either side is replaced independently |
| Navbar.SlugOfSpaceFree | src/components/layout/Navbar.tsx:31 | a name with no whitespace maps to its lower-case form |
| Navbar.SlugIdempotent | src/components/layout/Navbar.tsx:31 | the slug of a slug is the slug |
| Navbar.Link | src/components/layout/Navbar.tsx:31-39 | the key and text are the section name, the click scrolls to the section's slug, and the href is `#` followed by that same id, which has no whitespace or capitals |
| Navbar.Links | src/components/layout/Navbar.tsx:30-42 | one link per section, in order, each with the section's text, `#` plus its slug as href, and its slug as scroll target |
| Experiences.Init | src/components/layout/sections/ExperiencesSection.tsx:39 | the initial selected id is the first entry's id |
| Experiences.IndexOf | src/components/layout/sections/ExperiencesSection.tsx:42 | the search stops at the first entry with the id, or reports that none has it |
| Experiences.Find | src/components/layout/sections/ExperiencesSection.tsx:42 | the shown entry is none exactly when no entry has the id, and otherwise is the first entry with that id |
| Experiences.HandleSelect | src/components/layout/sections/ExperiencesSection.tsx:44-47 | selecting the current id leaves the state unchanged; any selection stores the id and leaves the entry list unchanged |
| Experiences.SelectShowsEntry | src/components/layout/sections/ExperiencesSection.tsx:42-47 | with distinct ids, selecting an entry's id shows that entry |
| Experiences.StaticListShowsSelection | src/components/layout/sections/ExperiencesSection.tsx:13-47 | for the static list the first entry is shown at start-up and each button shows its own entry |

## Left out

- The top-level phase controller (initial, transitioning, revealed) lives in `src/components/layout/PortfolioShell`, which is not part of this model.
- Camera unprojection, `lookAt`, quaternion `slerp`, world-matrix updates, the forward-fix rotation and the look-at blend factors (0.08 for the body, 0.18 for the head) are three.js floating-point internals. Only the guard choosing whether the head turns on its own is modelled (`Rig.RigIsTracked`).
- The sine values of the bob, hop, wiggle and leg swing are not computed. The model records which offset is evaluated and at what progress. The wiggle's damping envelope is kept because it is polynomial.
- Material set-up is left out: flat shading, roughness, the HSL colour boost, shadows and normals are floating-point colour work. Opacity is one value written to every mesh material, not one value per material.
- The frame callback's `if (!root) return;` exit (src/components/scene/Sheep.tsx:126) is not modelled: the sheep is mounted only after its asset has loaded, so the group it checks always exists.
- Mouse-position conversion to normalised coordinates and the DOM `scrollToSection` lookup are browser plumbing. The model keeps the id the click handler passes.
- The three.js `traverse` walk itself is not modelled. The visit order is an input sequence.
- Rig.OffsetFor: real arithmetic stands in for IEEE doubles, so rounding is not modelled. For a draw just below 1, such as 1 − 2⁻⁵³, the double sum `1.5 + Math.random() * 0.5` rounds to exactly 2.0, so the program's speed can reach the bound `speed < 2.0` that the model proves over the reals.
- Animator.Step: the two random draws are parameters of every frame, even on frames where `Sheep.tsx` draws nothing.
- Navbar.Slug: only ASCII `A`–`Z` are lower-cased. The full Unicode mapping of `toLowerCase`, including mappings that change the length, is not modelled.
- Experiences.StaticListShowsSelection: the static entries keep their ids, titles, companies and periods, but not the long detail bullet points. The selection logic does not read them.
- React re-render and stale-closure behaviour of `useCallback`, and the animation props of the detail panel, are framework machinery.

=== FILE: animator.dfy ===
/** The discrete and timing part of the per-frame callback of `Sheep.tsx`:
    the entrance fade-and-grow, and the occasional hop or wiggle.

    The mutable refs of the frame callback become one immutable `State`, and a frame
    becomes the pure function `Step(state, time, r1, r2)`, where `time` is
    the clock's elapsed time and `r1`, `r2` are the frame's random draws.
    The sine-based offsets are not computed; a frame reports which of them
    the frame callback evaluates and at what animation progress. */
module Animator {

  import opened Options
  import opened Draws

  datatype SpecialKind = NoSpecial | Hop | Wiggle

  /** `specialAnimState`. */
  datatype Special = Special(kind: SpecialKind, startTime: real, duration: real)

  /** `entranceAnimRef`; its duration never changes and is `EntranceDuration`. */
  datatype Entrance = Entrance(startTime: real, isComplete: bool)

  datatype State = State(entrance: Entrance, special: Special, lastSpecialAnimTime: real)

  const EntranceDuration: real := 0.8
  const SpecialDuration: real := 0.6
  const BaseScale: real := 0.4

  /** The refs as the component mounts. */
  const Initial: State := State(Entrance(0.0, false), Special(NoSpecial, 0.0, 0.0), 0.0)

  /** What the frame callback keeps true between frames: an active special
      animation was started by the trigger, after the entrance. */
  predicate Inv(s: State) {
    s.special.kind != NoSpecial ==>
      && s.entrance.isComplete
      && s.special.duration == SpecialDuration
      && s.special.startTime == s.lastSpecialAnimTime
  }

  /** The elapsed-time clock never runs backwards, so every time stamp kept
      in the state lies at or before the current time. */
  predicate ClockAfter(s: State, time: real) {
    && 0.0 <= time
    && s.entrance.startTime <= time
    && s.special.startTime <= time
    && s.lastSpecialAnimTime <= time
  }

  // ---------------------------------------------------------------------
  // Entrance

  function Cube(x: real): real {
    x * x * x
  }

  lemma CubeMonotone(a: real, b: real)
    requires 0.0 <= a <= b
    ensures 0.0 <= Cube(a) <= Cube(b)
  {
    assert 0.0 <= a * a <= a * b <= b * b;
    assert a * a * a <= b * b * a <= b * b * b;
  }

  /** `Math.min(elapsed / duration, 1)`. */
  function Progress(elapsed: real): (p: real)
    ensures p <= 1.0
    ensures 0.0 <= elapsed ==> 0.0 <= p
    ensures p == 1.0 <==> elapsed >= EntranceDuration
    ensures p < 1.0 ==> p * EntranceDuration == elapsed
  {
    var q := elapsed / EntranceDuration;
    if q < 1.0 then q else 1.0
  }

  /** The cubic ease-in-out of the entrance. */
  function Eased(t: real): real {
    if t < 0.5 then 4.0 * Cube(t) else 1.0 - Cube(-2.0 * t + 2.0) / 2.0
  }

  /** The easing maps [0, 1] into [0, 1], fixes both ends, and splits at
      one half. */
  lemma EasedRange(t: real)
    requires 0.0 <= t <= 1.0
    ensures 0.0 <= Eased(t) <= 1.0
    ensures t < 0.5 ==> Eased(t) <= 0.5
    ensures 0.5 <= t ==> 0.5 <= Eased(t)
    ensures t == 0.0 ==> Eased(t) == 0.0
    ensures t == 1.0 ==> Eased(t) == 1.0
  {
    if t < 0.5 {
      CubeMonotone(t, 0.5);
    } else {
      CubeMonotone(-2.0 * t + 2.0, 1.0);
    }
  }

  /** The easing never goes backwards. */
  lemma EasedMonotone(x: real, y: real)
    requires 0.0 <= x <= y <= 1.0
    ensures Eased(x) <= Eased(y)
  {
    if y < 0.5 {
      CubeMonotone(x, y);
    } else if 0.5 <= x {
      CubeMonotone(-2.0 * y + 2.0, -2.0 * x + 2.0);
    } else {
      EasedRange(x);
      EasedRange(y);
    }
  }

  /** The root's uniform scale during the entrance: from half of the base
      scale up to the full base scale. */
  function EntranceScale(eased: real): real {
    BaseScale * (0.5 + 0.5 * eased)
  }

  /** What the entrance part of a frame leaves behind: its ref, and the last
      scale, opacity and transparency it wrote (`None` when untouched). */
  datatype EntranceFrame = EntranceFrame(
    entrance: Entrance,
    scale: Option<real>,
    opacity: Option<real>,
    transparent: Option<bool>)

  /** The `if (!entranceAnim.isComplete)` block. A start time of exactly 0
      is read as "not started yet". */
  function EntranceStep(e: Entrance, time: real): (r: EntranceFrame)
    ensures e.isComplete ==> r == EntranceFrame(e, None, None, None)
    ensures !e.isComplete ==> r.scale.Some? && r.opacity.Some? && r.transparent.Some?
    ensures !e.isComplete ==> r.entrance.startTime == (if e.startTime == 0.0 then time else e.startTime)
    ensures r.entrance.isComplete <==> e.isComplete || (e.startTime != 0.0 && time - e.startTime >= EntranceDuration)
    ensures r.entrance.isComplete && !e.isComplete ==>
              r.scale == Some(BaseScale) && r.opacity == Some(1.0) && r.transparent == Some(false)
    ensures !e.isComplete && !r.entrance.isComplete ==>
              && r.opacity == Some(Eased(Progress(time - r.entrance.startTime)))
              && r.scale == Some(EntranceScale(Eased(Progress(time - r.entrance.startTime))))
    ensures !r.entrance.isComplete && r.entrance.startTime <= time ==>
              && r.transparent == Some(true)
              && 0.0 <= r.opacity.value <= 1.0
              && r.scale.value == BaseScale / 2.0 + BaseScale / 2.0 * r.opacity.value
              && BaseScale / 2.0 <= r.scale.value <= BaseScale
  {
    if e.isComplete then EntranceFrame(e, None, None, None)
    else
      var start := if e.startTime == 0.0 then time else e.startTime;
      var progress := Progress(time - start);
      var eased := Eased(progress);
      if progress >= 1.0 then
        EntranceFrame(Entrance(start, true), Some(BaseScale), Some(1.0), Some(false))
      else
        EasedRange(if 0.0 <= progress then progress else 0.0);
        EntranceFrame(Entrance(start, false), Some(EntranceScale(eased)), Some(eased), Some(true))
  }

  // ---------------------------------------------------------------------
  // Special animations

  /** `animations[Math.floor(Math.random() * animations.length)]`. */
  function PickKind(r2: real): (k: SpecialKind)
    requires UnitDraw(r2)
    ensures k != NoSpecial
    ensures k == Hop <==> r2 < 0.5
  {
    var i := (r2 * 2.0).Floor;
    [Hop, Wiggle][i]
  }

  /** The trigger block: with no flourish running and more than
      `8 + 2 * r1` time units since the last one began, start a new one. */
  function Trigger(s: State, time: real, r1: real, r2: real): (s': State)
    requires UnitDraw(r1) && UnitDraw(r2)
  {
    if s.special.kind == NoSpecial && time - s.lastSpecialAnimTime > 8.0 + r1 * 2.0 then
      s.(special := Special(PickKind(r2), time, SpecialDuration), lastSpecialAnimTime := time)
    else
      s
  }

  /** Which cosmetic offsets the idle block writes this frame. `Frozen`:
      the entrance is still running and the idle block is skipped. `Idle`:
      bob, roll and leg swing are written; `hop` or `wiggle` holds the
      progress at which the active flourish's sine offset is taken, and the
      roll is zero unless `wiggle` is present. */
  datatype Motion = Frozen | Idle(hop: Option<real>, wiggle: Option<real>)

  datatype SpecialFrame = SpecialFrame(special: Special, motion: Motion)

  /** The execution block: end the flourish once its progress reaches 1,
      otherwise report the flourish and its progress. */
  function Animate(sp: Special, time: real): (r: SpecialFrame)
    requires sp.kind != NoSpecial ==> sp.duration > 0.0
  {
    if sp.kind == NoSpecial then SpecialFrame(sp, Idle(None, None))
    else
      var p := (time - sp.startTime) / sp.duration;
      if p >= 1.0 then SpecialFrame(sp.(kind := NoSpecial), Idle(None, None))
      else if sp.kind == Hop then SpecialFrame(sp, Idle(Some(p), None))
      else SpecialFrame(sp, Idle(None, Some(p)))
  }

  /** The quadratic ease-in-out that damps the wiggle. */
  function SpecialEase(p: real): real {
    if p < 0.5 then 2.0 * p * p else 1.0 - (-2.0 * p + 2.0) * (-2.0 * p + 2.0) / 2.0
  }

  /** The amplitude of the wiggle's roll at progress `p`. */
  function WiggleEnvelope(p: real): real {
    0.15 * (1.0 - SpecialEase(p))
  }

  lemma SquareMonotone(a: real, b: real)
    requires 0.0 <= a <= b
    ensures 0.0 <= a * a <= b * b
  {
    assert a * a <= a * b <= b * b;
  }

  /** Over a wiggle the roll amplitude starts at 0.15, stays within
      [0, 0.15] and only decays. */
  lemma WiggleDecays(p: real, q: real)
    requires 0.0 <= p <= q <= 1.0
    ensures 0.0 <= WiggleEnvelope(q) <= WiggleEnvelope(p) <= 0.15
    ensures WiggleEnvelope(0.0) == 0.15
  {
    var u, v := -2.0 * q + 2.0, -2.0 * p + 2.0;
    if q < 0.5 {
      SquareMonotone(p, q);
      SquareMonotone(q, 0.5);
    } else if 0.5 <= p {
      SquareMonotone(u, v);
      SquareMonotone(v, 1.0);
    } else {
      SquareMonotone(p, 0.5);
      SquareMonotone(u, 1.0);
    }
  }

  // ---------------------------------------------------------------------
  // One frame

  /** Everything a frame writes that the model tracks. */
  datatype Frame = Frame(
    scale: Option<real>,
    opacity: Option<real>,
    transparent: Option<bool>,
    motion: Motion)

  datatype Tick = Tick(state: State, frame: Frame)

  /** One call of the frame callback. */
  function Step(s: State, time: real, r1: real, r2: real): (t: Tick)
    requires Inv(s) && UnitDraw(r1) && UnitDraw(r2)
    ensures Inv(t.state)
    ensures s.entrance.isComplete ==> t.state.entrance.isComplete
    ensures t.frame.motion.Frozen? <==> !t.state.entrance.isComplete
    ensures !t.state.entrance.isComplete ==>
              t.state.special == s.special && t.state.lastSpecialAnimTime == s.lastSpecialAnimTime
  {
    var ef := EntranceStep(s.entrance, time);
    var s1 := s.(entrance := ef.entrance);
    if !s1.entrance.isComplete then
      Tick(s1, Frame(ef.scale, ef.opacity, ef.transparent, Frozen))
    else
      var s2 := Trigger(s1, time, r1, r2);
      var sf := Animate(s2.special, time);
      Tick(s2.(special := sf.special), Frame(ef.scale, ef.opacity, ef.transparent, sf.motion))
  }

  /** A frame at the current time leaves every time stamp at or before any
      later time. */
  lemma StepKeepsClockOrder(s: State, time: real, r1: real, r2: real, later: real)
    requires Inv(s) && UnitDraw(r1) && UnitDraw(r2)
    requires ClockAfter(s, time) && time <= later
    ensures ClockAfter(Step(s, time, r1, r2).state, later)
  {
  }

  /** The first frame shows the sheep at half its base scale and fully
      transparent, and starts the entrance clock. */
  lemma FirstFrame(time: real, r1: real, r2: real)
    requires 0.0 <= time && UnitDraw(r1) && UnitDraw(r2)
    ensures Step(Initial, time, r1, r2).frame == Frame(Some(BaseScale / 2.0), Some(0.0), Some(true), Frozen)
    ensures Step(Initial, time, r1, r2).state.entrance == Entrance(time, false)
  {
    EasedRange(0.0);
  }

  /** Over two frames of the entrance the sheep never shrinks and never
      fades out. */
  lemma EntranceGrows(s: State, t1: real, t2: real, a1: real, a2: real, b1: real, b2: real)
    requires Inv(s) && UnitDraw(a1) && UnitDraw(a2) && UnitDraw(b1) && UnitDraw(b2)
    requires ClockAfter(s, t1) && t1 <= t2
    requires !s.entrance.isComplete
    ensures var first := Step(s, t1, a1, a2);
            var second := Step(first.state, t2, b1, b2);
            !first.state.entrance.isComplete ==>
              && first.frame.scale.value <= second.frame.scale.value
              && first.frame.opacity.value <= second.frame.opacity.value
  {
    var first := Step(s, t1, a1, a2);
    var second := Step(first.state, t2, b1, b2);
    if !first.state.entrance.isComplete {
      var start := first.state.entrance.startTime;
      assert start != 0.0 ==> second.state.entrance.startTime == start;
      var p1 := Progress(t1 - start);
      var p2 := Progress(t2 - (if start == 0.0 then t2 else start));
      if start == 0.0 {
        // The clock read zero on the first frame, so the second frame
        // starts the entrance over at progress 0.
        assert t1 == 0.0;
        EasedRange(0.0);
      } else if p2 >= 1.0 {
        EasedRange(p1);
      } else {
        assert p1 <= p2;
        EasedMonotone(p1, p2);
      }
    }
  }

  /** While a flourish runs no other is triggered, and it ends exactly on
      the first frame at which 0.6 time units have passed since it began;
      until then the frame evaluates its own offset at the elapsed fraction
      of the duration. */
  lemma SpecialRunsItsCourse(s: State, time: real, r1: real, r2: real)
    requires Inv(s) && UnitDraw(r1) && UnitDraw(r2)
    requires s.special.kind != NoSpecial
    ensures var t := Step(s, time, r1, r2);
            && t.state.special.startTime == s.special.startTime
            && t.state.special.duration == s.special.duration
            && t.state.lastSpecialAnimTime == s.lastSpecialAnimTime
            && (t.state.special.kind == NoSpecial <==> time - s.special.startTime >= SpecialDuration)
            && (t.state.special.kind != NoSpecial ==> t.state.special.kind == s.special.kind)
  ensures var t := Step(s, time, r1, r2);
          var p := (time - s.special.startTime) / SpecialDuration;
          && (t.state.special.kind == Hop ==> t.frame.motion == Idle(Some(p), None))
          && (t.state.special.kind == Wiggle ==> t.frame.motion == Idle(None, Some(p)))
  {
  }

  /** A flourish starts exactly when the entrance is complete, none is
      running, and more than `8 + 2 * r1` time units have passed since the
      last one began: so never within 8 units, and always after 10. It
      begins now, lasts 0.6, is a hop exactly when the second draw is below
      one half, and the starting frame evaluates it at progress 0. */
  lemma SpecialTrigger(s: State, time: real, r1: real, r2: real)
    requires Inv(s) && UnitDraw(r1) && UnitDraw(r2)
    requires s.special.kind == NoSpecial
    ensures var t := Step(s, time, r1, r2);
            var started := t.state.special.kind != NoSpecial;
            && (started ==> t.state.entrance.isComplete)
            && (started ==> time - s.lastSpecialAnimTime > 8.0)
            && (started ==> t.state.special == Special(if r2 < 0.5 then Hop else Wiggle, time, SpecialDuration))
            && (started ==> t.state.lastSpecialAnimTime == time)
            && (t.state.entrance.isComplete && time - s.lastSpecialAnimTime >= 10.0 ==> started)
            && (!started ==> t.state.lastSpecialAnimTime == s.lastSpecialAnimTime)
            && (started <==> t.state.entrance.isComplete && time - s.lastSpecialAnimTime > 8.0 + r1 * 2.0)
            && (started ==> t.frame.motion == (if r2 < 0.5 then Idle(Some(0.0), None) else Idle(None, Some(0.0))))
  {
  }

  /** The roll is written as zero unless a wiggle is running, and a frame
      evaluates at most one flourish, at a progress in [0, 1). */
  lemma RollZeroUnlessWiggle(s: State, time: real, r1: real, r2: real)
    requires Inv(s) && UnitDraw(r1) && UnitDraw(r2)
    requires ClockAfter(s, time)
    ensures var t := Step(s, time, r1, r2);
            t.frame.motion.Idle? ==>
              && !(t.frame.motion.hop.Some? && t.frame.motion.wiggle.Some?)
              && (t.frame.motion.wiggle.Some? ==> t.state.special.kind == Wiggle && 0.0 <= t.frame.motion.wiggle.value < 1.0)
              && (t.frame.motion.hop.Some? ==> t.state.special.kind == Hop && 0.0 <= t.frame.motion.hop.value < 1.0)
              && (t.state.special.kind == Wiggle ==> t.frame.motion.wiggle.Some?)
  {
  }

  /** The clock readings and draws of one frame. */
  datatype FrameInput = FrameInput(time: real, r1: real, r2: real)

  predicate ValidInputs(frames: seq<FrameInput>) {
    forall i :: 0 <= i < |frames| ==> UnitDraw(frames[i].r1) && UnitDraw(frames[i].r2)
  }

  /** The state after a run of frames. It keeps the invariant, so in
      particular no flourish is ever active before the entrance completes. */
  function Run(s: State, frames: seq<FrameInput>): (r: State)
    requires Inv(s) && ValidInputs(frames)
    ensures Inv(r)
    decreases |frames|
  {
    if frames == [] then s
    else Run(Step(s, frames[0].time, frames[0].r1, frames[0].r2).state, frames[1..])
  }

  /** Once the entrance has completed it stays complete for every later
      frame. */
  lemma {:induction false} CompleteStaysComplete(s: State, frames: seq<FrameInput>)
    requires Inv(s) && ValidInputs(frames)
    requires s.entrance.isComplete
    ensures Run(s, frames).entrance.isComplete
    decreases |frames|
  {
    if frames != [] {
      var next := Step(s, frames[0].time, frames[0].r1, frames[0].r2).state;
      CompleteStaysComplete(next, frames[1..]);
    }
  }

}

=== FILE: ascii.dfy ===
/** ASCII case folding and case-insensitive substring search.

    A JavaScript regular expression with the `i` flag and without the `u`
    flag folds a character only when its upper-case form is a single
    character that does not cross from non-ASCII into ASCII. For the
    patterns used by the model ("head", "ear", "leg") this means exactly
    the ASCII letters fold, so ASCII lowering is the whole story. */
module Ascii {

  import opened Options

  predicate IsUpper(c: char) {
    'A' <= c <= 'Z'
  }

  /** Lower-cases an ASCII capital; every other character is kept. */
  function Lower(c: char): (r: char)
    ensures !IsUpper(r)
    ensures IsUpper(c) ==> r as int == c as int + 32
    ensures !IsUpper(c) ==> r == c
  {
    if IsUpper(c) then (c as int + 32) as char else c
  }

  function LowerString(s: string): (r: string)
    ensures |r| == |s|
    ensures forall i :: 0 <= i < |s| ==> r[i] == Lower(s[i])
  {
    seq(|s|, i requires 0 <= i < |s| => Lower(s[i]))
  }

  predicate NoUpper(s: string) {
    forall i :: 0 <= i < |s| ==> !IsUpper(s[i])
  }

  /** Lowering a string without capitals changes nothing, so lowering is
      idempotent. */
  lemma LowerStringFixesLower(s: string)
    requires NoUpper(s)
    ensures LowerString(s) == s
  {
  }

  /** `pat` (already lower case) occurs in `s` at index `i`, ignoring case. */
  predicate MatchesAt(s: string, pat: string, i: nat)
    requires i + |pat| <= |s|
  {
    forall j :: 0 <= j < |pat| ==> Lower(s[i + j]) == pat[j]
  }

  /** The meaning of `/pat/i.test(s)`: some position of `s` matches `pat`. */
  ghost predicate ContainsIgnoringCase(s: string, pat: string) {
    exists i: nat :: i + |pat| <= |s| && MatchesAt(s, pat, i)
  }

  /** A left-to-right scan for the first case-insensitive occurrence of
      `pat` at or after `from`, as a regular-expression search performs it. */
  function Search(s: string, pat: string, from: nat): (r: Option<nat>)
    ensures r.Some? ==> from <= r.value && r.value + |pat| <= |s| && MatchesAt(s, pat, r.value)
    ensures r.Some? ==> forall k: nat :: from <= k < r.value ==> !MatchesAt(s, pat, k)
    ensures r.None? ==> forall k: nat :: from <= k && k + |pat| <= |s| ==> !MatchesAt(s, pat, k)
    decreases |s| - from
  {
    if from + |pat| > |s| then None
    else if MatchesAt(s, pat, from) then Some(from)
    else Search(s, pat, from + 1)
  }

  /** `/pat/i.test(s)`. */
  predicate Test(pat: string, s: string) {
    Search(s, pat, 0).Some?
  }

  /** The scan finds a match exactly when the pattern occurs somewhere. */
  lemma TestIffContains(pat: string, s: string)
    ensures Test(pat, s) <==> ContainsIgnoringCase(s, pat)
  {
    var r := Search(s, pat, 0);
    if r.Some? {
      assert MatchesAt(s, pat, r.value);
    }
  }

}

=== FILE: draws.dfy ===
/** Random draws enter the model as parameters. */
module Draws {

  /** A value `Math.random()` can return. */
  predicate UnitDraw(x: real) {
    0.0 <= x < 1.0
  }

}

=== FILE: experiences.dfy ===
/** The experience list of `ExperiencesSection.tsx`: the selected id, the
    select handler, and the entry shown for the selected id. */
module Experiences {

  import opened Options

  datatype Experience = Experience(
    id: string,
    title: string,
    company: string,
    period: string,
    description: string,
    details: seq<string>)

  /** The static list; the long detail bullet points are not reproduced. */
  const Entries: seq<Experience> := [
    Experience("exp-1", "Frontend Developer", "EcoDrive (ITM University)", "JUN 2025 - PRESENT", "", []),
    Experience("exp-2", "Searching for new experiences", "Open to Opportunities", "Always", "", [])
  ]

  predicate DistinctIds(entries: seq<Experience>) {
    forall i, j :: 0 <= i < j < |entries| ==> entries[i].id != entries[j].id
  }

  /** The component state, with the list it renders. */
  datatype View = View(entries: seq<Experience>, selectedId: string)

  /** `useState(experiences[0].id)`. */
  function Init(entries: seq<Experience>): (v: View)
    requires |entries| > 0
    ensures v.entries == entries && v.selectedId == entries[0].id
  {
    View(entries, entries[0].id)
  }

  /** The index `find` stops at: the first entry from `from` on whose id is
      `id`. */
  function IndexOf(entries: seq<Experience>, id: string, from: nat): (r: Option<nat>)
    ensures r.Some? ==> from <= r.value < |entries| && entries[r.value].id == id
    ensures r.Some? ==> forall j :: from <= j < r.value ==> entries[j].id != id
    ensures r.None? ==> forall j :: from <= j < |entries| ==> entries[j].id != id
    decreases |entries| - from
  {
    if from >= |entries| then None
    else if entries[from].id == id then Some(from)
    else IndexOf(entries, id, from + 1)
  }

  /** `experiences.find((exp) => exp.id === id)`. */
  function Find(entries: seq<Experience>, id: string): (r: Option<Experience>)
    ensures r.None? <==> forall j :: 0 <= j < |entries| ==> entries[j].id != id
    ensures r.Some? ==> r.value.id == id
    ensures r.Some? ==> exists i :: 0 <= i < |entries| && entries[i] == r.value
                                  && forall j :: 0 <= j < i ==> entries[j].id != id
  {
    var i := IndexOf(entries, id, 0);
    if i.None? then None else Some(entries[i.value])
  }

  /** `selectedExperience`. */
  function Shown(v: View): Option<Experience> {
    Find(v.entries, v.selectedId)
  }

  /** `handleSelect(id)`: selecting the current id returns early, any other
      id is stored; the list itself never changes. */
  function HandleSelect(v: View, id: string): (v': View)
    ensures v'.entries == v.entries
    ensures v'.selectedId == id
    ensures id == v.selectedId ==> v' == v
  {
    if id == v.selectedId then v else v.(selectedId := id)
  }

  /** With distinct ids, selecting an entry's id shows that very entry. */
  lemma SelectShowsEntry(v: View, i: nat)
    requires DistinctIds(v.entries)
    requires i < |v.entries|
    ensures Shown(HandleSelect(v, v.entries[i].id)) == Some(v.entries[i])
  {
    var r := Shown(HandleSelect(v, v.entries[i].id));
    var k :| 0 <= k < |v.entries| && v.entries[k] == r.value
             && forall j :: 0 <= j < k ==> v.entries[j].id != v.entries[i].id;
    assert k <= i;
    if k < i {
      assert v.entries[k].id == v.entries[i].id;
    }
  }

  /** The static list has distinct ids, so the first entry is shown at
      start-up and every button shows its own entry. */
  lemma StaticListShowsSelection(i: nat)
    requires i < |Entries|
    ensures Shown(Init(Entries)) == Some(Entries[0])
    ensures Shown(HandleSelect(Init(Entries), Entries[i].id)) == Some(Entries[i])
  {
    assert DistinctIds(Entries) by {
      assert Entries[0].id != Entries[1].id by {
        assert Entries[0].id[4] != Entries[1].id[4];
      }
    }
    SelectShowsEntry(Init(Entries), 0);
    SelectShowsEntry(Init(Entries), i);
  }

}

=== FILE: navbar.dfy ===
/** The navigation bar of `Navbar.tsx`: each section name becomes an anchor
    id by `section.toLowerCase().replace(/\s+/g, '-')`, and the link's
    `href` and click handler both use that id. */
module Navbar {

  import opened Ascii

  /** A character of the ECMAScript `\s` class: the WhiteSpace characters
      (tab, vertical tab, form feed, space, no-break space, zero-width
      no-break space and the other space separators) and the
      LineTerminator characters (line feed, carriage return, line and
      paragraph separator). */
  predicate IsSpace(c: char) {
    var k := c as int;
    || k == 0x09 || k == 0x0A || k == 0x0B || k == 0x0C || k == 0x0D
    || k == 0x20 || k == 0xA0 || k == 0x1680
    || (0x2000 <= k <= 0x200A)
    || k == 0x2028 || k == 0x2029 || k == 0x202F || k == 0x205F
    || k == 0x3000 || k == 0xFEFF
  }

  predicate NoSpace(s: string) {
    forall i :: 0 <= i < |s| ==> !IsSpace(s[i])
  }

  /** The global replacement of `/\s+/` by `-`, scanning left to right;
      `inRun` says whether the character before `s` was whitespace that has
      already been replaced. */
  function Scan(s: string, inRun: bool): (r: string)
    ensures NoSpace(r)
    ensures |r| <= |s|
    ensures NoUpper(s) ==> NoUpper(r)
  {
    if s == [] then []
    else if IsSpace(s[0]) then (if inRun then [] else ['-']) + Scan(s[1..], true)
    else [s[0]] + Scan(s[1..], false)
  }

  /** `s.replace(/\s+/g, '-')`. */
  function Collapse(s: string): string {
    Scan(s, false)
  }

  /** The section name to anchor id map. */
  function Slug(section: string): (id: string)
    ensures NoSpace(id)
    ensures NoUpper(id)
    ensures |id| <= |section|
  {
    Collapse(LowerString(section))
  }

  /** Whether the scan is inside a whitespace run after reading `s`. */
  function EndsInRun(s: string, inRun: bool): bool {
    if s == [] then inRun else IsSpace(s[|s| - 1])
  }

  /** The scan of a concatenation is the scan of each part, the second
      resuming in the run state the first ended in. */
  lemma {:induction false} ScanAppend(a: string, b: string, inRun: bool)
    ensures Scan(a + b, inRun) == Scan(a, inRun) + Scan(b, EndsInRun(a, inRun))
    decreases |a|
  {
    if a == [] {
      assert a + b == b;
    } else {
      var next := IsSpace(a[0]);
      var h := if next then (if inRun then [] else "-") else [a[0]];
      assert (a + b)[0] == a[0];
      assert (a + b)[1..] == a[1..] + b;
      ScanAppend(a[1..], b, next);
      assert EndsInRun(a[1..], next) == EndsInRun(a, inRun);
      calc {
        Scan(a + b, inRun);
        h + Scan(a[1..] + b, next);
        h + (Scan(a[1..], next) + Scan(b, EndsInRun(a, inRun)));
        (h + Scan(a[1..], next)) + Scan(b, EndsInRun(a, inRun));
        Scan(a, inRun) + Scan(b, EndsInRun(a, inRun));
      }
    }
  }

  /** A non-empty run of whitespace alone becomes a single `-`, or nothing
      when a run is already open. */
  lemma {:induction false} ScanRun(run: string, inRun: bool)
    requires |run| > 0
    requires forall i :: 0 <= i < |run| ==> IsSpace(run[i])
    ensures Scan(run, inRun) == (if inRun then [] else "-")
    decreases |run|
  {
    if |run| > 1 {
      ScanRun(run[1..], true);
    }
  }

  /** Text without whitespace passes the scan unchanged. */
  lemma {:induction false} ScanSpaceFree(w: string, inRun: bool)
    requires NoSpace(w)
    ensures Scan(w, inRun) == w
    decreases |w|
  {
    if w != [] {
      ScanSpaceFree(w[1..], false);
    }
  }

  /** Each maximal whitespace run becomes exactly one `-`: between text
      that does not end in whitespace and text that does not start with
      whitespace, a run of any length turns into one hyphen and the two
      sides are replaced independently. */
  lemma CollapseRun(u: string, run: string, v: string)
    requires u == [] || !IsSpace(u[|u| - 1])
    requires |run| > 0 && forall i :: 0 <= i < |run| ==> IsSpace(run[i])
    requires v == [] || !IsSpace(v[0])
    ensures Collapse(u + run + v) == Collapse(u) + "-" + Collapse(v)
  {
    ScanAppend(u + run, v, false);
    ScanAppend(u, run, false);
    ScanRun(run, false);
    assert EndsInRun(u + run, false);
    if v != [] {
      assert Scan(v, true) == Scan(v, false);
    }
  }

  /** A name without whitespace is only lower-cased. */
  lemma SlugOfSpaceFree(section: string)
    requires NoSpace(section)
    ensures Slug(section) == LowerString(section)
  {
    var lower := LowerString(section);
    assert NoSpace(lower) by {
      forall i | 0 <= i < |lower| ensures !IsSpace(lower[i]) {
        assert lower[i] == Lower(section[i]);
      }
    }
    ScanSpaceFree(lower, false);
  }

  /** Applying the map twice is the same as applying it once. */
  lemma SlugIdempotent(section: string)
    ensures Slug(Slug(section)) == Slug(section)
  {
    var id := Slug(section);
    SlugOfSpaceFree(id);
    LowerStringFixesLower(id);
  }

  /** One rendered link: its text and React key are the section name, its
      `href` is `#` and the id, and a click scrolls to the element with
      that id. */
  datatype NavLink = NavLink(key: string, text: string, href: string, scrollTarget: string)

  function Link(section: string): (l: NavLink)
    ensures l.key == section && l.text == section
    ensures l.scrollTarget == Slug(section)
    ensures |l.href| == |l.scrollTarget| + 1 && l.href[0] == '#' && l.href[1..] == l.scrollTarget
    ensures NoSpace(l.scrollTarget) && NoUpper(l.scrollTarget)
  {
    var id := Slug(section);
    NavLink(section, section, "#" + id, id)
  }

  /** `sections.map(...)`: one link per section, in order. */
  function Links(sections: seq<string>): (links: seq<NavLink>)
    ensures |links| == |sections|
    ensures forall i :: 0 <= i < |sections| ==> links[i].text == sections[i]
    ensures forall i :: 0 <= i < |sections| ==> links[i].href == "#" + Slug(sections[i])
    ensures forall i :: 0 <= i < |sections| ==> links[i].scrollTarget == Slug(sections[i])
  {
    seq(|sections|, i requires 0 <= i < |sections| => Link(sections[i]))
  }

}

=== FILE: options.dfy ===
/** The optional value used wherever the program returns `null`, `undefined`
    or "no value written this frame". */
module Options {

  datatype Option<+T> = None | Some(value: T)

}

=== FILE: rig.dfy ===
/** The one-off set-up of `Sheep.tsx`: sort the named nodes into head, ear
    and leg lists, choose the head rig, and draw one motion offset per leg. */
module Rig {

  import opened Options
  import opened Ascii
  import opened SceneGraph
  import opened Draws

  /** The node's name; a node without an entry is unnamed. */
  function NameOf(g: Graph, n: Node): string {
    if n in g.name then g.name[n] else ""
  }

  /** `/pat/i.test(obj.name)` behind the `if (!obj.name) return;` guard. */
  predicate NameMatches(g: Graph, n: Node, pat: string) {
    NameOf(g, n) != "" && Test(pat, NameOf(g, n))
  }

  /** The nodes of `order` whose name matches `pat`, in traversal order. */
  function Select(g: Graph, order: seq<Node>, pat: string): (r: seq<Node>)
    ensures |r| <= |order|
    ensures forall n :: n in r ==> n in order && NameMatches(g, n, pat)
    ensures forall n :: n in order && NameMatches(g, n, pat) ==> n in r
  {
    if order == [] then []
    else (if NameMatches(g, order[0], pat) then [order[0]] else []) + Select(g, order[1..], pat)
  }

  /** Selecting from a concatenation selects from each part in turn, so
      the relative traversal order of the selected nodes is kept. */
  lemma {:induction false} SelectAppend(g: Graph, a: seq<Node>, b: seq<Node>, pat: string)
    ensures Select(g, a + b, pat) == Select(g, a, pat) + Select(g, b, pat)
  {
    if a != [] {
      var head := if NameMatches(g, a[0], pat) then [a[0]] else [];
      assert (a + b)[0] == a[0];
      assert (a + b)[1..] == a[1..] + b;
      SelectAppend(g, a[1..], b, pat);
      calc {
        Select(g, a + b, pat);
        head + Select(g, a[1..] + b, pat);
        head + (Select(g, a[1..], pat) + Select(g, b, pat));
        (head + Select(g, a[1..], pat)) + Select(g, b, pat);
        Select(g, a, pat) + Select(g, b, pat);
      }
    } else {
      assert a + b == b;
    }
  }

  datatype Parts = Parts(heads: seq<Node>, ears: seq<Node>, legs: seq<Node>)

  /** The three lists as a declarative filter of the traversal order. A
      node may land in several lists. */
  function Classify(g: Graph, order: seq<Node>): (p: Parts)
    ensures forall n :: n in p.heads <==> n in order && NameOf(g, n) != "" && ContainsIgnoringCase(NameOf(g, n), "head")
    ensures forall n :: n in p.ears <==> n in order && NameOf(g, n) != "" && ContainsIgnoringCase(NameOf(g, n), "ear")
    ensures forall n :: n in p.legs <==> n in order && NameOf(g, n) != "" && ContainsIgnoringCase(NameOf(g, n), "leg")
  {
    forall n ensures Test("head", NameOf(g, n)) <==> ContainsIgnoringCase(NameOf(g, n), "head") {
      TestIffContains("head", NameOf(g, n));
    }
    forall n ensures Test("ear", NameOf(g, n)) <==> ContainsIgnoringCase(NameOf(g, n), "ear") {
      TestIffContains("ear", NameOf(g, n));
    }
    forall n ensures Test("leg", NameOf(g, n)) <==> ContainsIgnoringCase(NameOf(g, n), "leg") {
      TestIffContains("leg", NameOf(g, n));
    }
    Parts(Select(g, order, "head"), Select(g, order, "ear"), Select(g, order, "leg"))
  }

  /** Visiting one more node appends it to the list when its name
      matches. */
  lemma SelectSnoc(g: Graph, a: seq<Node>, x: Node, pat: string)
    ensures Select(g, a + [x], pat) == Select(g, a, pat) + (if NameMatches(g, x, pat) then [x] else [])
  {
    SelectAppend(g, a, [x], pat);
    assert [x][1..] == [];
  }

  /** The traversal callback of `Sheep.tsx`: visit the nodes in order and
      push each named node onto every list whose pattern its name matches.
      It computes exactly the declarative classification. */
  method Traverse(g: Graph, order: seq<Node>) returns (p: Parts)
    ensures p == Classify(g, order)
  {
    var heads, ears, legs := [], [], [];
    for i := 0 to |order|
      invariant heads == Select(g, order[..i], "head")
      invariant ears == Select(g, order[..i], "ear")
      invariant legs == Select(g, order[..i], "leg")
    {
      var obj := order[i];
      assert order[..i + 1] == order[..i] + [obj];
      SelectSnoc(g, order[..i], obj, "head");
      SelectSnoc(g, order[..i], obj, "ear");
      SelectSnoc(g, order[..i], obj, "leg");
      if NameOf(g, obj) != "" {
        if Test("head", NameOf(g, obj)) {
          heads := heads + [obj];
        }
        if Test("ear", NameOf(g, obj)) {
          ears := ears + [obj];
        }
        if Test("leg", NameOf(g, obj)) {
          legs := legs + [obj];
        }
      }
    }
    assert order[..|order|] == order;
    p := Parts(heads, ears, legs);
  }

  /** `heads[0] ?? null`. */
  function FirstHead(p: Parts): Option<Node> {
    if |p.heads| > 0 then Some(p.heads[0]) else None
  }

  /** `[head, ...ears].filter(Boolean)`: the head if there is one, then the
      ears. */
  function RigCandidates(p: Parts): (c: seq<Node>)
    ensures |c| == |p.ears| + (if |p.heads| > 0 then 1 else 0)
  {
    (if |p.heads| > 0 then [p.heads[0]] else []) + p.ears
  }

  /** The head rig: the lowest common ancestor of the head and ears unless
      that is missing or is the scene root, in which case the first head. */
  function SelectRig(g: Graph, scene: Node, p: Parts): (rig: Option<Node>)
    requires WellFormed(g)
    ensures rig.None? <==> |p.heads| == 0 && (Lca(g, RigCandidates(p)).None? || Lca(g, RigCandidates(p)) == Some(scene))
    ensures Lca(g, RigCandidates(p)).Some? && Lca(g, RigCandidates(p)).value != scene ==> rig == Lca(g, RigCandidates(p))
    ensures rig.Some? && rig != FirstHead(p) ==> rig.value != scene && CommonAncestor(g, RigCandidates(p), rig.value)
    ensures rig.Some? && rig != FirstHead(p) ==> forall k :: CommonAncestor(g, RigCandidates(p), k) ==> k in Ancestors(g, rig.value)
  {
    var candidate := Lca(g, RigCandidates(p));
    if candidate.Some? && candidate.value != scene then
      forall k | CommonAncestor(g, RigCandidates(p), k)
        ensures k in Ancestors(g, candidate.value)
      {
        LcaIsLowest(g, RigCandidates(p), k);
      }
      candidate
    else
      FirstHead(p)
  }

  /** With a head present there is always a rig, and it is the head or one
      of the head's ancestors. */
  lemma RigAboveHead(g: Graph, scene: Node, p: Parts)
    requires WellFormed(g)
    requires |p.heads| > 0
    ensures SelectRig(g, scene, p).Some?
    ensures SelectRig(g, scene, p).value in Ancestors(g, p.heads[0])
  {
    var rig := SelectRig(g, scene, p);
    if rig != FirstHead(p) {
      assert RigCandidates(p)[0] == p.heads[0];
    }
  }

  /** `head && head !== root`: the per-frame look-at turns the rig
      separately only when it exists and is not the animated root group. */
  predicate TracksHead(rig: Option<Node>, root: Node) {
    rig.Some? && rig.value != root
  }

  /** The traversal visits only nodes below the loaded scene, and the scene
      hangs directly under the animated group. Then any rig that is chosen
      is a node other than the group, so the head is turned on its own. */
  lemma RigIsTracked(g: Graph, scene: Node, group: Node, order: seq<Node>)
    requires WellFormed(g)
    requires scene in g.parent && g.parent[scene] == group
    requires forall n :: n in order ==> scene in Ancestors(g, n)
    requires SelectRig(g, scene, Classify(g, order)).Some?
    ensures TracksHead(SelectRig(g, scene, Classify(g, order)), group)
  {
    var p := Classify(g, order);
    var rig := SelectRig(g, scene, p).value;
    var cands := RigCandidates(p);
    if Some(rig) == FirstHead(p) {
      assert p.heads[0] in order;
      assert scene <= rig;
    } else {
      assert CommonAncestor(g, cands, scene) by {
        forall i | 0 <= i < |cands|
          ensures scene in Ancestors(g, cands[i])
        {
          assert cands[i] in p.heads || cands[i] in p.ears;
        }
      }
      assert scene in Ancestors(g, rig);
      assert scene <= rig;
    }
  }

  /** One leg's idle sway: phase, speed and amplitude of its sine wave. */
  datatype LegOffset = LegOffset(phase: real, speed: real, amplitude: real)

  /** `Math.PI` as a decimal. */
  const Pi: real := 3.141592653589793

  /** The offsets of one leg from its three draws. */
  function OffsetFor(d: (real, real, real)): (o: LegOffset)
    requires UnitDraw(d.0) && UnitDraw(d.1) && UnitDraw(d.2)
    ensures 0.0 <= o.phase < 2.0 * Pi
    ensures 1.5 <= o.speed < 2.0
    ensures 0.06 <= o.amplitude < 0.10
  {
    LegOffset(d.0 * Pi * 2.0, 1.5 + d.1 * 0.5, 0.06 + d.2 * 0.04)
  }

  /** `legs.map(() => ({ phase, speed, amplitude }))`, with the three
      random draws of each leg supplied as `draws[i]`. */
  function LegOffsets(legs: seq<Node>, draws: seq<(real, real, real)>): (offsets: seq<LegOffset>)
    requires |draws| == |legs|
    requires forall i :: 0 <= i < |draws| ==> UnitDraw(draws[i].0) && UnitDraw(draws[i].1) && UnitDraw(draws[i].2)
    ensures |offsets| == |legs|
    ensures forall i :: 0 <= i < |offsets| ==> 0.0 <= offsets[i].phase < 2.0 * Pi
    ensures forall i :: 0 <= i < |offsets| ==> 1.5 <= offsets[i].speed < 2.0
    ensures forall i :: 0 <= i < |offsets| ==> 0.06 <= offsets[i].amplitude < 0.10
    ensures forall i :: 0 <= i < |offsets| ==> offsets[i] == OffsetFor(draws[i])
  {
    seq(|legs|, i requires 0 <= i < |legs| => OffsetFor(draws[i]))
  }

  /** Every offset within the three ranges comes from some triple of draws:
      the draws reach the whole of each range. */
  lemma OffsetForOnto(o: LegOffset)
    requires 0.0 <= o.phase < 2.0 * Pi && 1.5 <= o.speed < 2.0 && 0.06 <= o.amplitude < 0.10
    ensures exists d: (real, real, real) :: UnitDraw(d.0) && UnitDraw(d.1) && UnitDraw(d.2) && OffsetFor(d) == o
  {
    var d := (o.phase / (2.0 * Pi), (o.speed - 1.5) / 0.5, (o.amplitude - 0.06) / 0.04);
    assert OffsetFor(d) == o;
  }

  /** Different draws give different offsets: the offset determines its
      draws. */
  lemma OffsetForInjective(d: (real, real, real), e: (real, real, real))
    requires UnitDraw(d.0) && UnitDraw(d.1) && UnitDraw(d.2)
    requires UnitDraw(e.0) && UnitDraw(e.1) && UnitDraw(e.2)
    requires OffsetFor(d) == OffsetFor(e)
    ensures d == e
  {
    assert d.0 * Pi * 2.0 == e.0 * Pi * 2.0;
    assert d.0 == e.0;
  }

  /** Each leg sways on its own draws: two legs whose draws differ get
      different offsets, so they are not synchronised. */
  lemma LegsIndependent(legs: seq<Node>, draws: seq<(real, real, real)>, i: nat, j: nat)
    requires |draws| == |legs|
    requires forall k :: 0 <= k < |draws| ==> UnitDraw(draws[k].0) && UnitDraw(draws[k].1) && UnitDraw(draws[k].2)
    requires i < |legs| && j < |legs| && draws[i] != draws[j]
    ensures LegOffsets(legs, draws)[i] != LegOffsets(legs, draws)[j]
  {
    if LegOffsets(legs, draws)[i] == LegOffsets(legs, draws)[j] {
      OffsetForInjective(draws[i], draws[j]);
    }
  }

  /** The memoised result of the set-up. */
  datatype Setup = Setup(headRig: Option<Node>, legNodes: seq<Node>, legOffsets: seq<LegOffset>)

  /** The whole set-up: classification, rig choice and leg offsets. */
  function Load(g: Graph, scene: Node, order: seq<Node>, draws: seq<(real, real, real)>): (s: Setup)
    requires WellFormed(g)
    requires |draws| == |Classify(g, order).legs|
    requires forall i :: 0 <= i < |draws| ==> UnitDraw(draws[i].0) && UnitDraw(draws[i].1) && UnitDraw(draws[i].2)
    ensures |s.legOffsets| == |s.legNodes|
    ensures forall n :: n in s.legNodes <==> n in order && NameOf(g, n) != "" && ContainsIgnoringCase(NameOf(g, n), "leg")
    ensures s.headRig == SelectRig(g, scene, Classify(g, order))
  {
    var p := Classify(g, order);
    Setup(SelectRig(g, scene, p), p.legs, LegOffsets(p.legs, draws))
  }

}

=== FILE: scene_graph.dfy ===
/** The loaded mesh hierarchy as an abstract forest, with the ancestor chain
    and lowest-common-ancestor search of `Sheep.tsx`.

    Nodes are natural-number ids. `parent` is the partial parent link (a node
    without an entry is a root). A well-formed graph numbers every parent
    below its children, so the id itself is a rank that makes the walk up
    the parent links finite; any finite tree can be numbered this way. */
module SceneGraph {

  import opened Options

  type Node = nat

  datatype Graph = Graph(parent: map<Node, Node>, name: map<Node, string>)

  predicate WellFormed(g: Graph) {
    forall n :: n in g.parent ==> g.parent[n] < n
  }

  /** An independent description of an ancestor chain: it starts at `n`,
      each element after the first is the parent of the one before, and it
      ends at a node that has no parent. */
  ghost predicate ParentChain(g: Graph, n: Node, chain: seq<Node>) {
    && |chain| >= 1
    && chain[0] == n
    && (forall i :: 0 <= i < |chain| - 1 ==> chain[i] in g.parent && g.parent[chain[i]] == chain[i + 1])
    && chain[|chain| - 1] !in g.parent
  }

  /** `ancestors(obj)`: the node itself, then its parent, and so on up to
      the root of its tree. */
  function Ancestors(g: Graph, n: Node): (chain: seq<Node>)
    requires WellFormed(g)
    ensures ParentChain(g, n, chain)
    ensures forall i :: 0 <= i < |chain| ==> chain[i] <= n
    decreases n
  {
    if n in g.parent then [n] + Ancestors(g, g.parent[n]) else [n]
  }

  /** The chain is the only sequence with the ParentChain shape. */
  lemma {:induction false} ParentChainUnique(g: Graph, n: Node, chain: seq<Node>)
    requires WellFormed(g)
    requires ParentChain(g, n, chain)
    ensures chain == Ancestors(g, n)
    decreases |chain|
  {
    if n in g.parent {
      assert |chain| >= 2;
      var rest := chain[1..];
      assert ParentChain(g, g.parent[n], rest) by {
        forall i | 0 <= i < |rest| - 1
          ensures rest[i] in g.parent && g.parent[rest[i]] == rest[i + 1]
        {
          assert rest[i] == chain[i + 1];
        }
      }
      ParentChainUnique(g, g.parent[n], rest);
      assert chain == [n] + rest;
    } else {
      assert |chain| == 1;
    }
  }

  /** Every tail of an ancestor chain is the ancestor chain of its head. */
  lemma {:induction false} AncestorsSuffix(g: Graph, n: Node, i: nat)
    requires WellFormed(g)
    requires i < |Ancestors(g, n)|
    ensures Ancestors(g, n)[i..] == Ancestors(g, Ancestors(g, n)[i])
    decreases i
  {
    if i > 0 {
      var p := g.parent[n];
      assert Ancestors(g, n) == [n] + Ancestors(g, p);
      AncestorsSuffix(g, p, i - 1);
      assert Ancestors(g, n)[i..] == Ancestors(g, p)[i - 1..];
    }
  }

  /** Of two ancestors of `n`, the one nearer to `n` lies below the other. */
  lemma AncestorsAreOrdered(g: Graph, n: Node, i: nat, j: nat)
    requires WellFormed(g)
    requires i <= j < |Ancestors(g, n)|
    ensures Ancestors(g, n)[j] in Ancestors(g, Ancestors(g, n)[i])
  {
    AncestorsSuffix(g, n, i);
    assert Ancestors(g, n)[j] == Ancestors(g, n)[i..][j - i];
  }

  /** `k` lies on the ancestor chain of every node of `nodes`
      (`chains.every((c) => c.includes(k))`). */
  predicate CommonAncestor(g: Graph, nodes: seq<Node>, k: Node)
    requires WellFormed(g)
  {
    forall i :: 0 <= i < |nodes| ==> k in Ancestors(g, nodes[i])
  }

  /** The loop `for (const candidate of chains[0])` of `lca`: the index of
      the first candidate from `from` on that lies on every chain. */
  function FirstCommon(g: Graph, nodes: seq<Node>, candidates: seq<Node>, from: nat): (r: Option<nat>)
    requires WellFormed(g)
    ensures r.Some? ==> from <= r.value < |candidates| && CommonAncestor(g, nodes, candidates[r.value])
    ensures r.Some? ==> forall j :: from <= j < r.value ==> !CommonAncestor(g, nodes, candidates[j])
    ensures r.None? ==> forall j :: from <= j < |candidates| ==> !CommonAncestor(g, nodes, candidates[j])
    decreases |candidates| - from
  {
    if from >= |candidates| then None
    else if CommonAncestor(g, nodes, candidates[from]) then Some(from)
    else FirstCommon(g, nodes, candidates, from + 1)
  }

  /** `lca(nodes)`: walk the first node's chain outwards and return the
      first element that every node's chain contains; `None` for an empty
      list or when no such element exists. */
  function Lca(g: Graph, nodes: seq<Node>): (r: Option<Node>)
    requires WellFormed(g)
    ensures |nodes| == 0 ==> r == None
    ensures r.Some? <==> |nodes| > 0 && exists k :: CommonAncestor(g, nodes, k)
    ensures r.Some? ==> CommonAncestor(g, nodes, r.value)
    ensures r.Some? ==> exists i :: 0 <= i < |Ancestors(g, nodes[0])| && Ancestors(g, nodes[0])[i] == r.value
                                  && forall j :: 0 <= j < i ==> !CommonAncestor(g, nodes, Ancestors(g, nodes[0])[j])
  {
    if |nodes| == 0 then None
    else
      var chain := Ancestors(g, nodes[0]);
      var found := FirstCommon(g, nodes, chain, 0);
      if found.None? then None
      else
        Some(chain[found.value])
  }

  /** The result of `lca` is the LOWEST common ancestor: every other common
      ancestor of the nodes lies above it. */
  lemma LcaIsLowest(g: Graph, nodes: seq<Node>, k: Node)
    requires WellFormed(g)
    requires Lca(g, nodes).Some?
    requires CommonAncestor(g, nodes, k)
    ensures k in Ancestors(g, Lca(g, nodes).value)
  {
    var l := Lca(g, nodes).value;
    var chain := Ancestors(g, nodes[0]);
    var i :| 0 <= i < |chain| && chain[i] == l
             && forall j :: 0 <= j < i ==> !CommonAncestor(g, nodes, chain[j]);
    assert k in chain;
    var j :| 0 <= j < |chain| && chain[j] == k;
    assert i <= j;
    AncestorsAreOrdered(g, nodes[0], i, j);
  }

  /** A one-node list is its own lowest common ancestor. */
  lemma LcaSingleton(g: Graph, n: Node)
    requires WellFormed(g)
    ensures Lca(g, [n]) == Some(n)
  {
    var chain := Ancestors(g, n);
    assert CommonAncestor(g, [n], chain[0]);
  }

  /** Nodes in disjoint trees have no common ancestor. */
  lemma LcaDisjoint(g: Graph, a: Node, b: Node)
    requires WellFormed(g)
    requires forall k :: k in Ancestors(g, a) ==> k !in Ancestors(g, b)
    ensures Lca(g, [a, b]) == None
  {
    forall k
      ensures !CommonAncestor(g, [a, b], k)
    {
      if k in Ancestors(g, a) {
        assert k !in Ancestors(g, [a, b][1]);
      } else {
        assert k !in Ancestors(g, [a, b][0]);
      }
    }
  }

  /** The worked example of a two-leaf tree: A -> B -> root and
      C -> B -> root share B as their lowest common ancestor. */
  lemma LcaSiblings()
    ensures Lca(Graph(map[1 := 0, 2 := 1, 3 := 1], map[]), [2, 3]) == Some(1)
  {
    var g := Graph(map[1 := 0, 2 := 1, 3 := 1], map[]);
    assert Ancestors(g, 2) == [2, 1, 0];
    assert Ancestors(g, 3) == [3, 1, 0];
    assert 2 !in Ancestors(g, [2, 3][1]);
    assert !CommonAncestor(g, [2, 3], 2);
    assert CommonAncestor(g, [2, 3], 1);
  }

}
